=== FILE: README.md ===
# WebOS kernel core in Dafny

A model of the small deterministic core of a microkernel that runs as a
WebAssembly module (wasm32) under a browser host. The host calls the
kernel's `syscall` export once per system call from a sandboxed process.
The model covers:

- the kernel entry point and its result codes (`Kernel`, kernel/src/lib.rs);
- the device drivers: a null sink and a serial sink (`Drivers`, kernel/src/drivers.rs);
- a table of sixteen file-descriptor slots and the VFS that
  maps `/dev/null` and `/dev/serial` to devices and dispatches on them
  (`Vfs`, kernel/src/vfs.rs);
- the global bump allocator (`Allocator`, kernel/src/allocator.rs);
- the host's shared syscall-slot layout and syscall numbers
  (`SyscallSlots`, web/syscalls.js);
- the user-side `write` wrapper and the host's forwarding of it, used for
  one ABI lemma (`Sdk`, os-sdk/src/lib.rs and web/bootstrap.js).

`Scenarios.HelloRun` replays the sample program's open/write/close
sequence on a fresh table and the VFS. `Scenarios.ClosedAndUnknownFail`
shows, for any table, that a closed fd no longer resolves and that an
unknown path fails. The kernel entry as written does not route the
program's calls to the VFS: its `write` goes through syscall 1 to the
import `sys.os_write`, and its `open` and `close` have no kernel branch at all.
The user-side SDK (os-sdk/src/lib.rs) provides only `write`; it defines no
`open`, `close` or `O_WRONLY` for the program to call.

The model is functional. The descriptor table is an immutable sequence of
sixteen `Option<FileDescriptor>`. Each table operation returns the new
table together with its result. Drivers are a sum type over the two
field-less driver structs, so driver operations are plain functions. The
allocator's `HEAP_PTR` is a one-field state record. `os_write` and
`serial_write` are host imports whose results lie outside the kernel, and
the linker symbol `__heap_base` gets its address at link time, so they are
parameters: function-typed for the imports, a number for `__heap_base`.

Machine integers follow wasm32: `usize` and `u32` are 32-bit unsigned
(`Machine.U32`), `i32` is two's complement (`Machine.I32`), and `as`
casts between them reinterpret the bits (`AsU32`, `AsI32`). The allocator's
`usize` arithmetic wraps modulo 2^32, as a release build does. Its bitwise
`&` is defined bit by bit (`BitAnd`). Its `!` on a 32-bit word is computed
as `2^32 - 1 - x` (`WordNot`); a `!` of any width is also defined bit by
bit (`BitNot`), and `WordNotIsBitwise` proves the two agree on 32 bits. An
inductive proof (`BitAndHighMask`) shows that `x & !(2^k - 1)` is `x`
rounded down to a multiple of `2^k`. So the allocator's mask agrees with an
independent round-up, `AlignUp(p, a) = ((p + a - 1) / a) * a`.

Two behaviours a fuller kernel might have are absent from the code, and
the model follows the code:

- A fuller dispatcher would keep a process table, copy buffers in and out
  across the isolation boundary, and route the five host syscall numbers
  (READ, WRITE, OPEN, CLOSE and IOCTL) to the VFS. The kernel entry as
  written has none of this. It handles only number 1, by calling the import
  `sys.os_write`, and answers `i32::MAX` to everything else. It uses neither
  the VFS nor the allocator.
- A fuller allocator would report exhaustion as a failure. The code has
  no exhaustion or overflow check and never fails. The model keeps the
  allocation total and states non-overlap under an explicit no-wrap
  condition (`Allocator.NoWrap`).

## Model

| member | source | states |
|---|---|---|
| `Machine.AsU32` | kernel/src/lib.rs:37 | `a1 as *const u8` and `a2 as usize` keep the same 32 bits: the result is congruent to the argument modulo 2^32, and equal to it when the argument is non-negative |
| `Machine.AsI32` | os-sdk/src/lib.rs:17 | `as i32` on a `usize` keeps the same 32 bits, and a value up to `i32::MAX` is unchanged |
| `Machine.ClearLowBits` | kernel/src/allocator.rs:24 | the bitwise `x & !(a - 1)` for `a = 2^k`, with `&` computed bit by bit by `Machine.BitAnd`, equals `x - x % a`, i.e. `x` rounded down to a multiple of `a` |
| `Machine.WrapAdd` | kernel/src/allocator.rs:24-25 | `usize` `+` as a release build performs it: below 2^32 the sum is exact; otherwise it is the sum less 2^32 |
| `Machine.BitNotIsComplement` | kernel/src/allocator.rs:24 | flipping each of the low `w` bits of a value below `2^w` gives `2^w - 1` minus that value |
| `Machine.WordNotIsBitwise` | kernel/src/allocator.rs:24 | the word-level `!x`, computed as `2^32 - 1 - x` and used for the mask `!(align - 1)`, equals flipping each of the 32 bits of `x` one by one |
| `Machine.BitAndHighMask` | kernel/src/allocator.rs:24 | `&` with a mask whose low `k` of `w` bits are clear and whose other bits are set clears exactly the low `k` bits of a `w`-bit value, i.e. subtracts its remainder modulo `2^k` |
| `Allocator.Alloc` | kernel/src/allocator.rs:13-29 | the address is a multiple of the alignment. Starting from the cursor, or from `__heap_base` while the cursor is 0 (the start is computed by `Allocator.Start`, lines 17-22): an aligned start is returned unchanged. Without wrap-around the address is the round-up of the start (`AlignUp`), lies in `[start, start + align)`, and the new cursor is `address + size` |
| `Allocator.Dealloc` | kernel/src/allocator.rs:31 | freeing leaves the cursor where it was |
| `Allocator.AllocAfterDealloc` | kernel/src/allocator.rs:31 | an allocation after a free returns the same as without the free |
| `Allocator.AllocAdvancesCursor` | kernel/src/allocator.rs:17-27 | without wrap-around the cursor never decreases, and the next allocation starts rounding exactly at the new cursor |
| `Allocator.SuccessiveAllocationsDisjoint` | kernel/src/allocator.rs:17-28 | two successive allocations that do not wrap give ranges `[a1, a1+s1)` and `[a2, a2+s2)` with `a1 + s1 <= a2` |
| `Allocator.AllocAllDisjoint` | kernel/src/allocator.rs:13-29 | in any run of non-wrapping allocations, every block is aligned, lies between the start and the final cursor, and lies wholly below every later block |
| `Kernel.Syscall` | kernel/src/lib.rs:25-41 | number 1 returns exactly `os_write(a0, a1, a2)` with the pointer and length read as unsigned. Every other number, including 0, 2, 3 and 16, returns `i32::MAX`, which is neither `OK` nor `ERR` |
| `Kernel.SyscallIgnoresPidAndHighArgs` | kernel/src/lib.rs:25-40 | the result does not depend on the pid or on `a3`, `a4`, `a5` |
| `Kernel.WriteForwardsArguments` | kernel/src/lib.rs:37 | a write with non-negative pointer and length passes them to `os_write` unchanged |
| `Drivers.DeviceOf` | kernel/src/vfs.rs:88-109 | the device ids `DEV_NULL` and `DEV_SERIAL` (kernel/src/drivers.rs lines 3-4) are the ids the VFS's `match` arms send to the null driver and the serial driver respectively, and the two ids differ |
| `Drivers.Read` | kernel/src/drivers.rs:14-43 | the buffer is never modified; the null device returns 0 and the serial device `ERR` |
| `Drivers.Write` | kernel/src/drivers.rs:14-43 | the null device returns the buffer length, 0 for an empty buffer; the serial device returns exactly `serial_write(ptr, len)` |
| `Drivers.Ioctl` | kernel/src/drivers.rs:14-43 | every command and argument fail with `ERR` on both devices |
| `Vfs.New` | kernel/src/vfs.rs:20-24 | a new table has every slot free |
| `Vfs.FirstFree` | kernel/src/vfs.rs:27-28 | finds the lowest free slot at or after the starting index, and reports none only when every such slot is occupied |
| `Vfs.Allocate` | kernel/src/vfs.rs:26-39 | fails exactly when the table is full, and then leaves it unchanged. Otherwise it returns the lowest free index `i`, all lower slots being occupied, and the new table differs from the old only in slot `i`, which holds `{dev, inode, offset: 0, flags}` |
| `Vfs.Get` | kernel/src/vfs.rs:41-46 | `None` for `fd < 0` or `fd >= 16`, otherwise exactly the slot's contents |
| `Vfs.GetMut` | kernel/src/vfs.rs:48-53 | yields slot `fd` only when `fd` is in range and that slot is occupied |
| `Vfs.GetMutAgreesWithGet` | kernel/src/vfs.rs:41-53 | `get_mut` finds a slot exactly when `get` finds a descriptor, and it is the slot holding that descriptor |
| `Vfs.Close` | kernel/src/vfs.rs:55-61 | out of range returns `ERR` and changes nothing; in range it empties that slot, returns `OK`, and no other slot changes |
| `Vfs.CloseIdempotent` | kernel/src/vfs.rs:55-61 | closing twice equals closing once, in both table and result |
| `Vfs.CloseThenGet` | kernel/src/vfs.rs:41-61 | after `close(fd)`, `get(fd)` is `None` and `get` of every other fd is unchanged |
| `Vfs.AllocateThenGet` | kernel/src/vfs.rs:26-46 | after a successful allocation, `get` of the returned fd gives the new descriptor and `get` of every other fd is unchanged |
| `Vfs.CloseThenAllocateReuses` | kernel/src/vfs.rs:26-61 | when every lower fd is open, closing `fd` and allocating again returns `fd` (first-fit reuse) |
| `Vfs.AllocateRunCountsUp` | kernel/src/vfs.rs:26-39 | from a table whose first `k` slots are open, `n` more allocations return `k, ..., k+n-1` in order |
| `Vfs.FreshTableFillsInOrder` | kernel/src/vfs.rs:20-39 | after `new()`, 16 allocations return 0, 1, ..., 15, the 17th fails, and the table is full |
| `Vfs.DeviceForPath` | kernel/src/vfs.rs:78-82 | `/dev/null` maps to `DEV_NULL`, `/dev/serial` to `DEV_SERIAL`, and every other path to nothing |
| `Vfs.Open` | kernel/src/vfs.rs:77-85 | fails with `ERR` exactly for an unknown path or a full table, leaving the table unchanged. Otherwise it returns the lowest free fd, whose slot now holds the path's device with inode 0, offset 0 and the given flags, and nothing else changes |
| `Vfs.DriverFor` | kernel/src/vfs.rs:88-92 | the device-id match selects the driver registered under that id and nothing for any other id |
| `Vfs.Write` | kernel/src/vfs.rs:87-93 | `DEV_NULL` gives the buffer length, `DEV_SERIAL` gives `serial_write`'s result, and any other device `ERR` |
| `Vfs.Read` | kernel/src/vfs.rs:95-101 | the buffer is never modified; `DEV_NULL` gives 0 and every other device `ERR` |
| `Vfs.Ioctl` | kernel/src/vfs.rs:103-109 | every descriptor, command and argument gives `ERR` |
| `Vfs.ReadSucceedsOnlyOnNull` | kernel/src/vfs.rs:95-101 | a read succeeds exactly when the descriptor's device is the null device |
| `Vfs.KnownDevicesPreserved` | kernel/src/vfs.rs:77-109 | `new`, `open` and `close` only ever produce tables whose descriptors name a known device, so the `ERR` fallback of read, write and ioctl is unreachable through them |
| `Vfs.OpenThenWrite` | kernel/src/vfs.rs:77-93 | opening a device path on a non-full table and writing through the new fd gives that device's driver result: the full length for `/dev/null`, and `serial_write`'s result for `/dev/serial` |
| `SyscallSlots.Offset` | web/syscalls.js:5-14 | each field's offset lies in `[0, SLOT_SIZE_INT32)` |
| `SyscallSlots.FieldAt` | web/syscalls.js:5-14 | an offset names a field exactly when it lies inside the slot |
| `SyscallSlots.OffsetsAreALayout` | web/syscalls.js:5-14 | the ten offsets are pairwise distinct, and together they fill the slot |
| `SyscallSlots.GetSlotBase` | web/syscalls.js:22-24 | the base is a multiple of the slot size, and dividing it by the slot size gives back the pid |
| `SyscallSlots.CellRoundTrip` | web/syscalls.js:1-24 | the cell index of `(pid, field)` decodes back to `(pid, field)` |
| `SyscallSlots.CellsDisjoint` | web/syscalls.js:1-24 | two requests share a cell only if they have the same pid and the same field |
| `SyscallSlots.SlotsDisjoint` | web/syscalls.js:1-24 | the ranges `[10p, 10p+10)` and `[10q, 10q+10)` of distinct pids do not meet |
| `SyscallSlots.CellInBounds` | web/syscalls.js:1-24 | for `pid < MAX_PROCESSES` every field's cell is below 320, and its byte offset is below 1280 |
| `SyscallSlots.SysFromNumber` | web/syscalls.js:16-20 | a number decodes to a syscall exactly when it is one of the five `SYS_*` values |
| `SyscallSlots.SysNumbersDistinct` | web/syscalls.js:16-20 | each `SYS_*` number decodes to its own syscall, so the five are pairwise distinct |
| `SyscallSlots.OnlyWriteIsServed` | kernel/src/lib.rs:36-39 | `SYS_WRITE` equals the kernel's handled number. Of the five host syscall numbers, only write reaches `os_write`; read, open, close and ioctl return "no such syscall" |
| `Sdk.WriteRequest` | os-sdk/src/lib.rs:16-18 | the wrapper issues number 1 with the fd, and with the address and length cast to `i32` so that the kernel's unsigned reading recovers them |
| `Sdk.WriteReachesOsWrite` | web/bootstrap.js:49-51 | through the host's forwarding (`Sdk.Dispatch`, which puts the caller's pid in front of the seven words), the wrapper's `write(fd, buf)` makes the kernel call `os_write(fd, ptr, len)` with exactly the buffer's address and length |
| `Scenarios.HelloRun` | apps/hello/src/lib.rs:7-19 | replays the sample program's open/write/close sequence directly on a fresh table and the VFS (the kernel entry as written does not route it there): `/dev/null` opens as fd 0 and its write gives the full length, then it closes with `OK`. `/dev/serial` then opens as fd 0 again, its write gives `serial_write`'s result, and it closes with `OK`. The table ends empty |
| `Scenarios.ClosedAndUnknownFail` | kernel/src/vfs.rs:55-85 | a closed fd no longer resolves, and a path outside the device namespace returns `ERR` with the table unchanged |

## Left out

- The process table, the copy-in/copy-out protocol and the READ, OPEN, CLOSE and IOCTL branches of the dispatcher: the kernel entry as written has none of them. The model has no richer dispatcher than the code.
- The host imports `os_read`, `os_open` and `os_ipc_send`: declared in kernel/src/lib.rs but never called.
- `_start` and the panic handler: an empty function and an infinite loop.
- `Vfs::new` and the `Vfs` struct: the struct holds only the two field-less drivers, so the VFS operations are functions without state.
- Driver state: `NullDriver` and `SerialDriver` have no fields. No driver operation has state to change, and the model has none to thread.
- The `offset` field's seek behaviour: it is set to 0 and never advanced, so the model only records it.
- Relaxed atomics on `HEAP_PTR`: the cursor is single-threaded state.
- The host's own `serial_write` (which logs and returns 0) and `cp_from_bin`/`cp_to_bin`: host code outside the kernel. `serial_write` and `os_write` are uninterpreted parameters. The kernel's `serial_write`, used by drivers.rs, is not declared in the lib.rs shown; the model takes it to be the host's `sys.serial_write`.
- The worker-side `Atomics` handshake over the syscall slots, the page bootstrap, the static web server and the sample program as a program: host and application code, not kernel logic. Only the slot layout is modelled.
- Allocator.Alloc: promises the round-up bounds, the cursor update and the non-overlap of later blocks only under `NoWrap`. The source has no overflow check: past the end of the 32-bit address space it wraps silently in a release build and panics in a debug build. The model wraps and states nothing about overlap there.
- Sdk.WriteReachesOsWrite: the web/bootstrap.js shown gives the kernel a `sys` import object with `serial_write` only and no `os_write`, so the kernel as written would not link against that host. The lemma covers a host that does supply `sys.os_write`.
- SyscallSlots.GetSlotBase: JavaScript numbers are IEEE doubles, and `pid * SLOT_SIZE_INT32` and the cell offsets are modelled as exact integers. That is valid while cell indices stay within 2^53, which covers every pid the 32-slot area can hold. `CellRoundTrip`, `CellsDisjoint` and `SlotsDisjoint` hold for all integer pids in the model, but for the JavaScript only up to that bound.
- Drivers.Write: the null device's `buf.len() as i32` is exact only because a Rust slice is at most `isize::MAX` bytes long, so `Machine.Buf` carries that bound as a type invariant instead of modelling a truncating cast.

=== FILE: allocator.dfy ===
/** The kernel's global bump allocator (`KernelAlloc`): a single cursor,
    `HEAP_PTR`, that each allocation rounds up to the requested alignment
    and then advances past the requested size. Nothing is ever freed.

    The cursor is plain single-threaded state here (the source's relaxed
    atomics add nothing for one caller), and the linker symbol
    `__heap_base` is a parameter, `heapBase`. Arithmetic is `usize`
    arithmetic on wasm32: 32 bits, wrapping as a release build does. */
module Allocator {
  import opened Machine

  /** `core::alloc::Layout`. Rust keeps the alignment as a power of two, so
      the model stores its exponent. */
  datatype Layout = Layout(size: U32, alignLog2: nat) {
    /** What `Layout`'s constructors guarantee: the alignment is a power of
        two and the size rounded up to it does not exceed `isize::MAX`. */
    predicate Valid() {
      alignLog2 < 32 && size + Pow2(alignLog2) - 1 <= I32_MAX
    }

    function Align(): (a: U32)
      requires alignLog2 < 32
      ensures 1 <= a <= 0x8000_0000
    {
      Pow2Below32(alignLog2);
      Pow2(alignLog2)
    }
  }

  /** The `HEAP_PTR` cursor; 0 means no allocation has happened yet. */
  datatype Heap = Heap(cursor: U32)

  const Fresh: Heap := Heap(0)

  datatype Allocation = Allocation(heap: Heap, addr: U32)

  /** Where the next allocation starts rounding from: the cursor, or
      `__heap_base` while the cursor is still 0. */
  function Start(h: Heap, heapBase: U32): U32 {
    if h.cursor == 0 then heapBase else h.cursor
  }

  /** Reference definition of rounding up: the least multiple of `a` that
      is at least `p`. */
  function AlignUp(p: int, a: int): int
    requires 0 < a
  {
    ((p + a - 1) / a) * a
  }

  /** The allocation from `start` stays inside the 32-bit address space:
      neither the rounding nor the advance by `size` wraps. The source has no
      such check, so every promise below beyond alignment is conditional on it. */
  predicate NoWrap(start: U32, layout: Layout)
    requires layout.Valid()
  {
    && start + layout.Align() - 1 <= U32_MAX
    && AlignUp(start, layout.Align()) + layout.size <= U32_MAX
  }

  /** `GlobalAlloc::alloc`: round the start up with the mask
      `(ptr + align - 1) & !(align - 1)`, store `aligned + size` as the new
      cursor, return `aligned`. There is no failure result. */
  function Alloc(h: Heap, heapBase: U32, layout: Layout): (r: Allocation)
    requires layout.Valid()
    ensures r.addr % layout.Align() == 0
    ensures Start(h, heapBase) % layout.Align() == 0 ==> r.addr == Start(h, heapBase)
    ensures NoWrap(Start(h, heapBase), layout) ==>
      && r.addr == AlignUp(Start(h, heapBase), layout.Align())
      && Start(h, heapBase) <= r.addr < Start(h, heapBase) + layout.Align()
      && r.heap.cursor == r.addr + layout.size
  {
    var ptr := Start(h, heapBase);
    var align := layout.Align();
    var bumped := WrapAdd(ptr, align - 1);
    var aligned := ClearLowBits(bumped, layout.alignLog2);
    AllocFacts(ptr, layout, bumped, aligned);
    Allocation(Heap(WrapAdd(aligned, layout.size)), aligned)
  }

  lemma AllocFacts(ptr: U32, layout: Layout, bumped: U32, aligned: U32)
    requires layout.Valid() && bumped == WrapAdd(ptr, layout.Align() - 1)
    requires aligned == bumped - bumped % Pow2(layout.alignLog2)
    ensures aligned % layout.Align() == 0
    ensures ptr % layout.Align() == 0 ==> aligned == ptr
    ensures ptr + layout.Align() - 1 <= U32_MAX ==>
      aligned == AlignUp(ptr, layout.Align()) && ptr <= aligned < ptr + layout.Align()
  {
    var a := layout.Align();
    var x := bumped;
    assert aligned == x - x % a;
    RoundDownIsMultiple(x, a);
    if ptr % a == 0 {
      AlignedStartFits(ptr, layout);
    }
    if ptr + a - 1 <= U32_MAX {
      assert x == ptr + a - 1;
      RoundUpByMask(ptr, a);
    }
  }

  /** Rounding `p + a - 1` down to a multiple of `a` rounds `p` up. */
  lemma RoundUpByMask(p: int, a: int)
    requires 0 < a
    ensures var x := p + a - 1;
      && x - x % a == AlignUp(p, a)
      && p <= x - x % a < p + a
      && (p % a == 0 ==> x - x % a == p)
  {
    var x := p + a - 1;
    assert x == (x / a) * a + x % a;
    if p % a == 0 {
      assert p == (p / a) * a;
      ModUnique(x, a, p / a, a - 1);
    }
  }

  lemma RoundDownIsMultiple(x: int, a: int)
    requires 0 < a
    ensures (x - x % a) % a == 0
  {
    ModUnique(x - x % a, a, x / a, 0);
  }

  /** An aligned start leaves room for `align - 1` more bytes, because the
      address space size 2^32 is itself a multiple of the alignment. */
  lemma AlignedStartFits(ptr: U32, layout: Layout)
    requires layout.Valid() && ptr % layout.Align() == 0
    ensures ptr + layout.Align() - 1 <= U32_MAX
  {
    var a := layout.Align();
    var m := Pow2(32 - layout.alignLog2);
    assert U32_LIMIT == m * a by {
      assert a == Pow2(layout.alignLog2);
      Pow2Below32(layout.alignLog2);
    }
    ModUnique(U32_LIMIT, a, m, 0);
    MultipleBelowMultiple(ptr, a, U32_LIMIT);
  }

  /** Below a multiple `n` of `a`, a multiple `p` of `a` is at most `n - a`. */
  lemma MultipleBelowMultiple(p: int, a: int, n: int)
    requires 0 < a && 0 <= p < n && p % a == 0 && n % a == 0
    ensures p + a <= n
  {
    var q, m := p / a, n / a;
    assert p == q * a && n == m * a;
    if q >= m {
      MulLeq(m, q, a);
    }
    assert q + 1 <= m;
    MulLeq(q + 1, m, a);
    assert (q + 1) * a == q * a + a;
  }

  lemma MulLeq(x: int, y: int, a: int)
    requires x <= y && 0 <= a
    ensures x * a <= y * a
  {
  }

  /** `GlobalAlloc::dealloc`: does nothing; the cursor never moves back. */
  function Dealloc(h: Heap, addr: U32, layout: Layout): (r: Heap)
    ensures r.cursor == h.cursor
  {
    h
  }

  /** Freeing changes nothing a later allocation could observe. */
  lemma AllocAfterDealloc(h: Heap, heapBase: U32, addr: U32, freed: Layout, layout: Layout)
    requires layout.Valid()
    ensures Alloc(Dealloc(h, addr, freed), heapBase, layout) == Alloc(h, heapBase, layout)
  {
  }

  /** Absent wrap-around the cursor never moves back, and the next
      allocation starts rounding exactly at the new cursor (even in the
      corner case where it is 0 again, which needs `__heap_base` to be 0). */
  lemma AllocAdvancesCursor(h: Heap, heapBase: U32, layout: Layout)
    requires layout.Valid() && NoWrap(Start(h, heapBase), layout)
    ensures var r := Alloc(h, heapBase, layout);
      && h.cursor <= r.heap.cursor
      && Start(r.heap, heapBase) == r.heap.cursor
  {
  }

  /** Two successive allocations that do not wrap return disjoint ranges,
      the second above the first. */
  lemma SuccessiveAllocationsDisjoint(h: Heap, heapBase: U32, l1: Layout, l2: Layout)
    requires l1.Valid() && l2.Valid()
    requires NoWrap(Start(h, heapBase), l1)
    requires NoWrap(Start(Alloc(h, heapBase, l1).heap, heapBase), l2)
    ensures var r1 := Alloc(h, heapBase, l1);
      var r2 := Alloc(r1.heap, heapBase, l2);
      r1.addr + l1.size <= r2.addr
  {
    AllocAdvancesCursor(h, heapBase, l1);
  }

  datatype Allocations = Allocations(heap: Heap, addrs: seq<U32>)

  predicate AllValid(layouts: seq<Layout>) {
    forall i :: 0 <= i < |layouts| ==> layouts[i].Valid()
  }

  /** A run of allocations, one per layout, from heap `h`. */
  function AllocAll(h: Heap, heapBase: U32, layouts: seq<Layout>): (r: Allocations)
    requires AllValid(layouts)
    ensures |r.addrs| == |layouts|
    decreases |layouts|
  {
    if |layouts| == 0 then Allocations(h, [])
    else
      var first := Alloc(h, heapBase, layouts[0]);
      var rest := AllocAll(first.heap, heapBase, layouts[1..]);
      Allocations(rest.heap, [first.addr] + rest.addrs)
  }

  /** No allocation of the run wraps around the address space. */
  predicate NoWrapAll(h: Heap, heapBase: U32, layouts: seq<Layout>)
    requires AllValid(layouts)
    decreases |layouts|
  {
    |layouts| == 0 ||
    (NoWrap(Start(h, heapBase), layouts[0]) &&
     NoWrapAll(Alloc(h, heapBase, layouts[0]).heap, heapBase, layouts[1..]))
  }

  /** Every block of a run is aligned, lies between the starting point and
      the final cursor, and lies wholly below every later block: the bump
      allocator never hands out overlapping memory while it does not wrap. */
  lemma {:induction false} AllocAllDisjoint(h: Heap, heapBase: U32, layouts: seq<Layout>)
    requires AllValid(layouts) && NoWrapAll(h, heapBase, layouts)
    ensures var r := AllocAll(h, heapBase, layouts);
      && h.cursor <= r.heap.cursor
      && (|layouts| == 0 ==> r.heap == h)
      && (forall i :: 0 <= i < |layouts| ==>
            && r.addrs[i] % layouts[i].Align() == 0
            && Start(h, heapBase) <= r.addrs[i]
            && r.addrs[i] + layouts[i].size <= r.heap.cursor)
      && (forall i, j :: 0 <= i < j < |layouts| ==> r.addrs[i] + layouts[i].size <= r.addrs[j])
    decreases |layouts|
  {
    if |layouts| > 0 {
      var first := Alloc(h, heapBase, layouts[0]);
      var tail := layouts[1..];
      AllocAdvancesCursor(h, heapBase, layouts[0]);
      AllocAllDisjoint(first.heap, heapBase, tail);
      var rest := AllocAll(first.heap, heapBase, tail);
      assert layouts == [layouts[0]] + tail;
      PrependBlock(Start(h, heapBase), first.addr, first.heap.cursor, rest.heap.cursor,
                   layouts[0], tail, rest.addrs);
    }
  }

  /** Putting a block below a run of blocks that starts at its end keeps
      every block aligned, inside the run's bounds and below its successors. */
  lemma PrependBlock(start: int, addr: U32, mid: int, end: int,
                     first: Layout, tail: seq<Layout>, rest: seq<U32>)
    requires first.Valid() && AllValid(tail) && |rest| == |tail|
    requires addr % first.Align() == 0 && start <= addr
    requires addr + first.size == mid <= end
    requires forall i :: 0 <= i < |tail| ==>
      && rest[i] % tail[i].Align() == 0
      && mid <= rest[i]
      && rest[i] + tail[i].size <= end
    requires forall i, j :: 0 <= i < j < |tail| ==> rest[i] + tail[i].size <= rest[j]
    ensures var layouts := [first] + tail;
      var addrs := [addr] + rest;
      && (forall i :: 0 <= i < |layouts| ==>
            && addrs[i] % layouts[i].Align() == 0
            && start <= addrs[i]
            && addrs[i] + layouts[i].size <= end)
      && (forall i, j :: 0 <= i < j < |layouts| ==> addrs[i] + layouts[i].size <= addrs[j])
  {
    var layouts := [first] + tail;
    var addrs := [addr] + rest;
    forall i | 0 <= i < |layouts|
      ensures addrs[i] % layouts[i].Align() == 0
      ensures start <= addrs[i]
      ensures addrs[i] + layouts[i].size <= end
    {
      if i > 0 {
        assert addrs[i] == rest[i - 1] && layouts[i] == tail[i - 1];
      }
    }
    forall i, j | 0 <= i < j < |layouts|
      ensures addrs[i] + layouts[i].size <= addrs[j]
    {
      assert addrs[j] == rest[j - 1] && layouts[j] == tail[j - 1];
      if i > 0 {
        assert addrs[i] == rest[i - 1] && layouts[i] == tail[i - 1];
      }
    }
  }
}

=== FILE: drivers.dfy ===
/** The device drivers: a read/write/ioctl capability with two stateless
    implementations. The null device swallows writes and reads as empty;
    the serial device forwards writes to the host import `serial_write`
    (a parameter here) and supports nothing else. */
module Drivers {
  import opened Machine
  import opened Kernel

  const DEV_NULL: U32 := 0
  const DEV_SERIAL: U32 := 1

  /** The host import `serial_write(ptr, len)`. */
  type SerialWrite = (U32, U32) -> ResultCode

  /** The implementors of the `Driver` trait. Neither has fields, so no
      operation has driver state to change. */
  datatype Driver = NullDriver | SerialDriver

  /** The device id each driver is registered under. */
  function DeviceOf(d: Driver): (dev: U32)
    ensures dev == DEV_NULL <==> d == NullDriver
    ensures dev == DEV_SERIAL <==> d == SerialDriver
  {
    match d
    case NullDriver => DEV_NULL
    case SerialDriver => DEV_SERIAL
  }

  /** What a `read` returns, and the caller's buffer after it. */
  datatype ReadOutcome = ReadOutcome(code: ResultCode, buf: Buf)

  /** `Driver::read`: the null device reports end of file (0 bytes), the
      serial device has no input yet and fails; neither touches the buffer. */
  function Read(d: Driver, buf: Buf): (r: ReadOutcome)
    ensures r.buf == buf
    ensures d == NullDriver ==> r.code == 0
    ensures d == SerialDriver ==> r.code == ERR
  {
    match d
    case NullDriver => ReadOutcome(0, buf)
    case SerialDriver => ReadOutcome(ERR, buf)
  }

  /** `Driver::write`: the null device reports the whole buffer consumed
      (`buf.len() as i32`, exact because a slice is at most `i32::MAX`
      bytes long); the serial device returns whatever `serial_write` does. */
  function Write(d: Driver, buf: Buf, serialWrite: SerialWrite): (r: ResultCode)
    ensures d == NullDriver ==> r == |buf.bytes| && r >= 0
    ensures d == SerialDriver ==> r == serialWrite(buf.addr, |buf.bytes|)
  {
    match d
    case NullDriver => AsI32(buf.Len())
    case SerialDriver => serialWrite(buf.addr, buf.Len())
  }

  /** `Driver::ioctl`: neither device supports any command. */
  function Ioctl(d: Driver, cmd: U32, arg: U32): (r: ResultCode)
    ensures r == ERR
  {
    match d
    case NullDriver => ERR
    case SerialDriver => ERR
  }
}

=== FILE: kernel.dfy ===
/** The kernel crate root: result-code conventions and the `syscall`
    entry point the host calls once per system call. The entry point as
    written serves only number 1 (write), by forwarding to the host import
    `sys.os_write`; every other number yields `i32::MAX`. The host imports
    are not visible to the model, so `os_write` is a parameter. */
module Kernel {
  import opened Machine

  type ResultCode = I32
  type Fd = I32
  type Pid = I32

  const OK: ResultCode := 0
  const ERR: ResultCode := -1

  /** The only syscall number the entry point handles. */
  const WRITE_NR: I32 := 1

  /** Returned for every other syscall number: `i32::MAX`. */
  const NO_SUCH_SYSCALL: I32 := 0x7FFF_FFFF

  /** The host import `os_write(fd, ptr, len)`. */
  type OsWrite = (Fd, U32, U32) -> ResultCode

  /** `syscall(pid, nr, a0, .., a5)`. The pointer and length arguments are
      `a1 as *const u8` and `a2 as usize`, which on wasm32 read the same 32
      bits as unsigned. */
  function Syscall(osWrite: OsWrite, pid: Pid, nr: I32,
                   a0: I32, a1: I32, a2: I32, a3: I32, a4: I32, a5: I32): (r: I32)
    ensures nr == WRITE_NR ==> r == osWrite(a0, AsU32(a1), AsU32(a2))
    ensures nr != WRITE_NR ==> r == NO_SUCH_SYSCALL
    ensures nr != WRITE_NR ==> r != OK && r != ERR && r > 0
  {
    match nr
    case 1 => osWrite(a0, AsU32(a1), AsU32(a2))
    case _ => I32_MAX
  }

  /** The result depends only on the syscall number and the first three
      arguments: not on the caller's pid, nor on `a3`, `a4`, `a5`. */
  lemma SyscallIgnoresPidAndHighArgs(osWrite: OsWrite, pid: Pid, pid': Pid, nr: I32,
                                     a0: I32, a1: I32, a2: I32,
                                     a3: I32, a4: I32, a5: I32,
                                     b3: I32, b4: I32, b5: I32)
    ensures Syscall(osWrite, pid, nr, a0, a1, a2, a3, a4, a5)
         == Syscall(osWrite, pid', nr, a0, a1, a2, b3, b4, b5)
  {
  }

  /** A write's pointer and length reach `os_write` unchanged whenever they
      fit in an `i32`'s non-negative range. */
  lemma WriteForwardsArguments(osWrite: OsWrite, pid: Pid, fd: Fd,
                               ptr: I32, len: I32, a3: I32, a4: I32, a5: I32)
    requires 0 <= ptr && 0 <= len
    ensures Syscall(osWrite, pid, WRITE_NR, fd, ptr, len, a3, a4, a5) == osWrite(fd, ptr, len)
  {
  }
}

=== FILE: machine.dfy ===
/** Machine integers of the wasm32 target the kernel is compiled for:
    `u8`, `u32`/`usize` (both 32 bits wide there) and `i32`, Rust's `as`
    casts between them, wrapping `usize` addition, and the bitwise `&` and
    `!` the allocator uses: `&` and a `!` of any width are defined bit by
    bit, and the word-level `!` is shown to agree with flipping all 32 bits. */
module Machine {

  const U32_LIMIT: int := 0x1_0000_0000
  const U32_MAX: int := 0xFFFF_FFFF
  const I32_MIN: int := -0x8000_0000
  const I32_MAX: int := 0x7FFF_FFFF

  type U8 = x: int | 0 <= x < 0x100
  /** `u32`, and `usize` on wasm32. */
  type U32 = x: int | 0 <= x < 0x1_0000_0000
  type I32 = x: int | -0x8000_0000 <= x < 0x8000_0000

  /** A Rust slice `&[u8]`: its start address and its contents. Rust
      guarantees a slice spans at most `isize::MAX` bytes (`i32::MAX` on
      wasm32) and does not wrap around the address space. */
  datatype Slice = Slice(addr: U32, bytes: seq<U8>) {
    predicate Valid() {
      |bytes| <= I32_MAX && addr + |bytes| <= U32_LIMIT
    }
    function Len(): U32
      requires Valid()
    {
      |bytes|
    }
  }

  type Buf = s: Slice | s.Valid() witness Slice(0, [])

  /** `x as u32` (or `as usize`) for an `i32`: the same 32 bits read as unsigned. */
  function AsU32(x: I32): (r: U32)
    ensures (r - x) % U32_LIMIT == 0
    ensures 0 <= x ==> r == x
  {
    if x < 0 then x + U32_LIMIT else x
  }

  /** `x as i32` for a `u32`/`usize`: the same 32 bits read as two's complement. */
  function AsI32(x: U32): (r: I32)
    ensures (r - x) % U32_LIMIT == 0
    ensures x <= I32_MAX ==> r == x
  {
    if x <= I32_MAX then x else x - U32_LIMIT
  }

  /** Reading an `i32`'s bits as unsigned and back loses nothing, and the
      other way round. */
  lemma CastRoundTrip(x: I32, y: U32)
    ensures AsI32(AsU32(x)) == x
    ensures AsU32(AsI32(y)) == y
  {
  }

  /** `usize` addition as a release build performs it: modulo 2^32. */
  function WrapAdd(x: U32, y: U32): (r: U32)
    ensures x + y < U32_LIMIT ==> r == x + y
    ensures x + y >= U32_LIMIT ==> r == x + y - U32_LIMIT
  {
    (x + y) % U32_LIMIT
  }

  function Pow2(k: nat): (r: nat)
    ensures r >= 1
  {
    if k == 0 then 1 else 2 * Pow2(k - 1)
  }

  /** The bitwise `&` of the low `width` bits of `x` and `y`. */
  function BitAnd(x: nat, y: nat, width: nat): nat
    decreases width
  {
    if width == 0 then 0
    else 2 * BitAnd(x / 2, y / 2, width - 1) + (x % 2) * (y % 2)
  }

  /** The bitwise `!` of the low `width` bits of `x`. */
  function BitNot(x: nat, width: nat): nat
    decreases width
  {
    if width == 0 then 0
    else 2 * BitNot(x / 2, width - 1) + (1 - x % 2)
  }

  /** `!` on a 32-bit word, computed as its distance from the all-ones
      word; `WordNotIsBitwise` shows this flips each of the 32 bits. */
  function WordNot(x: U32): (r: U32)
    ensures x + r == U32_MAX
  {
    U32_MAX - x
  }

  /** `x & !(a - 1)` on a 32-bit word, for the power of two `a = 2^k`: the
      bitwise mask clears the low `k` bits, which rounds `x` down to a
      multiple of `a`. */
  function ClearLowBits(x: U32, k: nat): (r: U32)
    requires k < 32
    ensures r == x - x % Pow2(k)
  {
    ClearLowBitsRoundsDown(x, k);
    BitAnd(x, WordNot(Pow2(k) - 1), 32)
  }

  lemma {:induction false} Pow2Monotone(j: nat, k: nat)
    requires j <= k
    ensures Pow2(j) <= Pow2(k)
    decreases k
  {
    if j < k {
      Pow2Monotone(j, k - 1);
    }
  }

  lemma {:induction false} Pow2Add(j: nat, k: nat)
    ensures Pow2(j + k) == Pow2(j) * Pow2(k)
    decreases k
  {
    if k > 0 {
      Pow2Add(j, k - 1);
      assert Pow2(j + k) == 2 * Pow2(j + (k - 1));
    }
  }

  /** 2^32 is the size of the address space. */
  lemma Pow2Word()
    ensures Pow2(32) == U32_LIMIT
  {
    assert Pow2(4) == 16;
    Pow2Add(4, 4);
    Pow2Add(8, 8);
    Pow2Add(16, 16);
  }

  /** Splitting off the lowest bit: the remainder modulo 2^k is twice the
      remainder of the halved number modulo 2^(k-1), plus that bit. */
  lemma ModPow2Step(x: nat, k: nat)
    requires 1 <= k
    ensures x % Pow2(k) == 2 * ((x / 2) % Pow2(k - 1)) + x % 2
  {
    var p := Pow2(k - 1);
    var q := x / 2;
    var s := q / p;
    var t := q % p;
    assert q == s * p + t;
    assert x == s * (2 * p) + (2 * t + x % 2);
    ModUnique(x, 2 * p, s, 2 * t + x % 2);
  }

  lemma ModUnique(x: int, d: int, q: int, r: int)
    requires 0 < d && 0 <= r < d && x == q * d + r
    ensures x % d == r && x / d == q
  {
    var q', r' := x / d, x % d;
    assert (q - q') * d == r' - r by {
      assert x == q' * d + r';
      MulSub(q, q', d);
    }
    if q > q' {
      MulAtLeast(q - q', d);
    } else if q < q' {
      assert (q' - q) * d == -((q - q') * d);
      MulAtLeast(q' - q, d);
    }
  }

  lemma RemainderBelow(x: nat, d: int)
    requires 0 < d
    ensures x % d <= x
  {
    ModUnique(x, d, x / d, x % d);
  }

  lemma MulSub(a: int, b: int, d: int)
    ensures (a - b) * d == a * d - b * d
  {
  }

  lemma MulAtLeast(m: int, d: int)
    requires 1 <= m && 0 < d
    ensures d <= m * d
  {
  }

  /** `x & all-ones == x` on `width` bits. */
  lemma {:induction false} BitAndAllOnes(x: nat, width: nat)
    requires x < Pow2(width)
    ensures BitAnd(x, Pow2(width) - 1, width) == x
    decreases width
  {
    if width > 0 {
      var m := Pow2(width) - 1;
      ModUnique(m, 2, Pow2(width - 1) - 1, 1);
      BitAndAllOnes(x / 2, width - 1);
    }
  }

  /** Masking with `m = 2^w - 2^k` (ones everywhere but the low `k` of `w`
      bits) clears exactly the low `k` bits, i.e. subtracts the remainder
      modulo 2^k. */
  lemma {:induction false} BitAndHighMask(x: nat, k: nat, width: nat, m: nat)
    requires k <= width && x < Pow2(width) && m + Pow2(k) == Pow2(width)
    ensures BitAnd(x, m, width) == x - x % Pow2(k)
    decreases width
  {
    if k == 0 {
      HighMaskBase(x, width, m);
    } else {
      HalfMask(m, k, width);
      HalfBelow(x, width);
      BitAndHighMask(x / 2, k - 1, width - 1, m / 2);
      HighMaskStep(x, k, width, m);
    }
  }

  lemma HighMaskBase(x: nat, width: nat, m: nat)
    requires x < Pow2(width) && m + Pow2(0) == Pow2(width)
    ensures BitAnd(x, m, width) == x - x % Pow2(0)
  {
    BitAndAllOnes(x, width);
  }

  lemma HalfBelow(x: nat, width: nat)
    requires 1 <= width && x < Pow2(width)
    ensures x / 2 < Pow2(width - 1)
  {
  }

  /** Halving the mask `2^w - 2^k` gives the mask `2^(w-1) - 2^(k-1)`. */
  lemma HalfMask(m: nat, k: nat, width: nat)
    requires 1 <= k <= width && m + Pow2(k) == Pow2(width)
    ensures m % 2 == 0 && m / 2 + Pow2(k - 1) == Pow2(width - 1)
  {
    ModUnique(m, 2, Pow2(width - 1) - Pow2(k - 1), 0);
  }

  /** One step of `BitAndHighMask`: an even mask keeps the low bit clear. */
  lemma HighMaskStep(x: nat, k: nat, width: nat, m: nat)
    requires 1 <= k <= width && m % 2 == 0
    requires BitAnd(x / 2, m / 2, width - 1) == x / 2 - (x / 2) % Pow2(k - 1)
    ensures BitAnd(x, m, width) == x - x % Pow2(k)
  {
    var low := (x / 2) % Pow2(k - 1);
    assert BitAnd(x, m, width) == 2 * (x / 2 - low);
    ModPow2Step(x, k);
  }

  /** Flipping every bit of a `width`-bit value subtracts it from the
      all-ones word of that width. */
  lemma {:induction false} BitNotIsComplement(x: nat, width: nat)
    requires x < Pow2(width)
    ensures BitNot(x, width) == Pow2(width) - 1 - x
    decreases width
  {
    if width > 0 {
      assert x / 2 < Pow2(width - 1);
      BitNotIsComplement(x / 2, width - 1);
    }
  }

  /** The word-level `!` agrees with flipping the 32 bits one by one. */
  lemma WordNotIsBitwise(x: U32)
    ensures WordNot(x) == BitNot(x, 32)
  {
    Pow2Word();
    BitNotIsComplement(x, 32);
  }

  /** The mask identity behind `ClearLowBits`, on 32-bit words. */
  lemma ClearLowBitsRoundsDown(x: U32, k: nat)
    requires k < 32
    ensures Pow2(k) <= 0x8000_0000
    ensures BitAnd(x, WordNot(Pow2(k) - 1), 32) == x - x % Pow2(k)
    ensures x % Pow2(k) <= x
  {
    RemainderBelow(x, Pow2(k));
    Pow2Below32(k);
    Pow2Word();
    var a := Pow2(k);
    var mask := Pow2(32) - a;
    assert WordNot(a - 1) == mask;
    BitAndHighMask(x, k, 32, mask);
  }

  lemma Pow2Below32(k: nat)
    requires k < 32
    ensures Pow2(k) <= 0x8000_0000
    ensures Pow2(k) * Pow2(32 - k) == U32_LIMIT
  {
    Pow2Monotone(k, 31);
    Pow2Word();
    Pow2Add(k, 32 - k);
  }
}

=== FILE: scenarios.dfy ===
/** End-to-end runs of the descriptor table and VFS: the sample program's
    open/write/close sequence replayed directly on them, and the reuse of a
    closed descriptor. */
module Scenarios {
  import opened Machine
  import opened Wrappers
  import opened Kernel
  import opened Vfs
  import Drivers

  /** The sample program's open/write/close sequence, replayed directly on a
      fresh table and the VFS. (The kernel entry as written does not route
      it there: the program's `write` reaches the import `sys.os_write` through
      syscall 1, and its `open` and `close` have no kernel branch.) On the
      table, `/dev/null` opens as fd 0 and swallows the whole message,
      closing it frees fd 0, so `/dev/serial` opens as fd 0 again and its
      write returns what `serial_write` returns; after both closes the table
      is empty again, and fd 0 no longer resolves to a descriptor. */
  lemma HelloRun(flags: U32, first: Buf, second: Buf, serialWrite: Drivers.SerialWrite)
    ensures var o1 := Open("/dev/null", flags, New());
      var c1 := Close(o1.table, o1.fd);
      var o2 := Open("/dev/serial", flags, c1.table);
      var c2 := Close(o2.table, o2.fd);
      && o1.fd == 0
      && Get(o1.table, 0) == Some(FileDescriptor(Drivers.DEV_NULL, 0, 0, flags))
      && Write(Get(o1.table, 0).value, first, serialWrite) == |first.bytes|
      && c1.code == OK
      && o2.fd == 0
      && Get(o2.table, 0) == Some(FileDescriptor(Drivers.DEV_SERIAL, 0, 0, flags))
      && Write(Get(o2.table, 0).value, second, serialWrite) == serialWrite(second.addr, |second.bytes|)
      && c2.code == OK
      && c2.table == New()
      && Get(c2.table, 0).None?
  {
    var t0 := New();
    var o1 := Open("/dev/null", flags, t0);
    assert IsFree(t0, 0);
    assert o1.fd == 0;
    var c1 := Close(o1.table, o1.fd);
    assert c1.table == t0;
    var o2 := Open("/dev/serial", flags, c1.table);
    assert o2.fd == 0;
    var c2 := Close(o2.table, o2.fd);
    assert c2.table == t0;
  }

  /** A write after close finds no descriptor, while a path outside the
      device namespace never opens. */
  lemma ClosedAndUnknownFail(t: FdTable, fd: Fd, path: string, flags: U32)
    requires path != "/dev/null" && path != "/dev/serial"
    ensures Get(Close(t, fd).table, fd).None?
    ensures Open(path, flags, t) == Opened(t, ERR)
  {
  }
}

=== FILE: sdk.dfy ===
/** The user-side syscall wrapper and the host's forwarding of it: what a
    process's `write(fd, buf)` puts on the wire, and what the kernel entry
    makes of it. */
module Sdk {
  import opened Machine
  import Kernel

  /** The seven words a process passes to the `kernel.syscall` import. */
  datatype Request = Request(nr: I32, a0: I32, a1: I32, a2: I32, a3: I32, a4: I32, a5: I32)

  /** `write(fd, buf)`: number 1, then the descriptor, the buffer's address
      and its length, each cast `as i32`, and three zero words. */
  function WriteRequest(fd: Kernel.Fd, buf: Buf): (r: Request)
    ensures r.nr == Kernel.WRITE_NR && r.a0 == fd
    ensures AsU32(r.a1) == buf.addr && AsU32(r.a2) == |buf.bytes|
  {
    CastRoundTrip(0, buf.addr);
    CastRoundTrip(0, buf.Len());
    Request(1, fd, AsI32(buf.addr), AsI32(buf.Len()), 0, 0, 0)
  }

  /** The host's `kernel.syscall` import: the kernel's entry point with the
      caller's pid put in front. */
  function Dispatch(osWrite: Kernel.OsWrite, pid: Kernel.Pid, req: Request): I32 {
    Kernel.Syscall(osWrite, pid, req.nr, req.a0, req.a1, req.a2, req.a3, req.a4, req.a5)
  }

  /** The wrapper's write lands in the kernel's one served branch, and the
      address and length survive the round trip through `i32`, even for an
      address above `i32::MAX`: `os_write` sees exactly `(fd, ptr, len)`. */
  lemma WriteReachesOsWrite(osWrite: Kernel.OsWrite, pid: Kernel.Pid, fd: Kernel.Fd, buf: Buf)
    ensures Dispatch(osWrite, pid, WriteRequest(fd, buf)) == osWrite(fd, buf.addr, |buf.bytes|)
  {
  }
}

=== FILE: syscall_slots.dfy ===
/** The host side's shared syscall area: one slot of ten 32-bit cells per
    process, a fixed offset for each field of a request, and the stable
    syscall numbers. */
module SyscallSlots {
  import opened Machine
  import opened Wrappers
  import Kernel

  const SLOT_SIZE_INT32: int := 10
  const SLOT_SIZE_BYTES: int := SLOT_SIZE_INT32 * 4
  const MAX_PROCESSES: int := 32

  const OFFSET_STATE: int := 0
  const OFFSET_SYSCALL_NR: int := 1
  const OFFSET_ARG0: int := 2
  const OFFSET_ARG1: int := 3
  const OFFSET_ARG2: int := 4
  const OFFSET_ARG3: int := 5
  const OFFSET_ARG4: int := 6
  const OFFSET_ARG5: int := 7
  const OFFSET_RETURN: int := 8
  const OFFSET_UNUSED: int := 9

  const SYS_READ: I32 := 0
  const SYS_WRITE: I32 := 1
  const SYS_OPEN: I32 := 2
  const SYS_CLOSE: I32 := 3
  const SYS_IOCTL: I32 := 16

  /** The fields of a slot, one per `OFFSET_*` constant. */
  datatype Field = State | SyscallNr | Arg0 | Arg1 | Arg2 | Arg3 | Arg4 | Arg5 | Return | Unused

  function Offset(f: Field): (off: int)
    ensures 0 <= off < SLOT_SIZE_INT32
  {
    match f
    case State => OFFSET_STATE
    case SyscallNr => OFFSET_SYSCALL_NR
    case Arg0 => OFFSET_ARG0
    case Arg1 => OFFSET_ARG1
    case Arg2 => OFFSET_ARG2
    case Arg3 => OFFSET_ARG3
    case Arg4 => OFFSET_ARG4
    case Arg5 => OFFSET_ARG5
    case Return => OFFSET_RETURN
    case Unused => OFFSET_UNUSED
  }

  /** The field stored at an offset within a slot. */
  function FieldAt(off: int): (f: Option<Field>)
    ensures f.Some? <==> 0 <= off < SLOT_SIZE_INT32
  {
    if off == OFFSET_STATE then Some(State)
    else if off == OFFSET_SYSCALL_NR then Some(SyscallNr)
    else if off == OFFSET_ARG0 then Some(Arg0)
    else if off == OFFSET_ARG1 then Some(Arg1)
    else if off == OFFSET_ARG2 then Some(Arg2)
    else if off == OFFSET_ARG3 then Some(Arg3)
    else if off == OFFSET_ARG4 then Some(Arg4)
    else if off == OFFSET_ARG5 then Some(Arg5)
    else if off == OFFSET_RETURN then Some(Return)
    else if off == OFFSET_UNUSED then Some(Unused)
    else None
  }

  /** Every field has its own offset and every offset in the slot names one
      field: the ten offsets are pairwise distinct and fill the slot. */
  lemma OffsetsAreALayout(f: Field, g: Field, off: int)
    ensures FieldAt(Offset(f)) == Some(f)
    ensures 0 <= off < SLOT_SIZE_INT32 ==> Offset(FieldAt(off).value) == off
    ensures Offset(f) == Offset(g) ==> f == g
  {
  }

  /** `getSlotBase(pid)`: where process `pid`'s slot starts, in cells. */
  function GetSlotBase(pid: int): (base: int)
    ensures base % SLOT_SIZE_INT32 == 0 && base / SLOT_SIZE_INT32 == pid
  {
    ModUnique(pid * SLOT_SIZE_INT32, SLOT_SIZE_INT32, pid, 0);
    pid * SLOT_SIZE_INT32
  }

  /** The cell that holds field `f` of process `pid`'s request. */
  function CellIndex(pid: int, f: Field): int {
    GetSlotBase(pid) + Offset(f)
  }

  datatype Cell = Cell(pid: int, field: Field)

  /** Which process and field a cell belongs to. */
  function CellAt(index: int): Cell {
    Cell(index / SLOT_SIZE_INT32, FieldAt(index % SLOT_SIZE_INT32).value)
  }

  /** A cell index names its process and field: decoding the index of
      `(pid, f)` gives back `(pid, f)`, so no two requests share a cell. */
  lemma CellRoundTrip(pid: int, f: Field)
    ensures CellAt(CellIndex(pid, f)) == Cell(pid, f)
  {
    var off := Offset(f);
    ModUnique(CellIndex(pid, f), SLOT_SIZE_INT32, pid, off);
    OffsetsAreALayout(f, f, off);
  }

  lemma CellsDisjoint(p: int, f: Field, q: int, g: Field)
    ensures CellIndex(p, f) == CellIndex(q, g) ==> p == q && f == g
  {
    CellRoundTrip(p, f);
    CellRoundTrip(q, g);
  }

  /** The slots of two different processes share no cell. */
  lemma SlotsDisjoint(p: int, q: int, i: int)
    requires p != q
    requires GetSlotBase(p) <= i < GetSlotBase(p) + SLOT_SIZE_INT32
    ensures !(GetSlotBase(q) <= i < GetSlotBase(q) + SLOT_SIZE_INT32)
  {
    if GetSlotBase(q) <= i < GetSlotBase(q) + SLOT_SIZE_INT32 {
      ModUnique(i, SLOT_SIZE_INT32, p, i - GetSlotBase(p));
      ModUnique(i, SLOT_SIZE_INT32, q, i - GetSlotBase(q));
    }
  }

  /** For each of the `MAX_PROCESSES` pids, every field lies inside the
      shared area of `MAX_PROCESSES * SLOT_SIZE_INT32` = 320 cells, which is
      `MAX_PROCESSES * SLOT_SIZE_BYTES` = 1280 bytes. */
  lemma CellInBounds(pid: int, f: Field)
    requires 0 <= pid < MAX_PROCESSES
    ensures 0 <= CellIndex(pid, f) < MAX_PROCESSES * SLOT_SIZE_INT32 == 320
    ensures 4 * CellIndex(pid, f) < MAX_PROCESSES * SLOT_SIZE_BYTES == 1280
  {
  }

  /** The syscalls a slot can carry, one per `SYS_*` constant. */
  datatype Sys = Read | Write | Open | Close | Ioctl

  function SysNumber(s: Sys): (nr: I32)
    ensures 0 <= nr
  {
    match s
    case Read => SYS_READ
    case Write => SYS_WRITE
    case Open => SYS_OPEN
    case Close => SYS_CLOSE
    case Ioctl => SYS_IOCTL
  }

  function SysFromNumber(nr: int): (s: Option<Sys>)
    ensures s.Some? <==> nr in {SYS_READ, SYS_WRITE, SYS_OPEN, SYS_CLOSE, SYS_IOCTL}
  {
    if nr == SYS_READ then Some(Read)
    else if nr == SYS_WRITE then Some(Write)
    else if nr == SYS_OPEN then Some(Open)
    else if nr == SYS_CLOSE then Some(Close)
    else if nr == SYS_IOCTL then Some(Ioctl)
    else None
  }

  /** The syscall numbers are pairwise distinct: each decodes to its own
      syscall. */
  lemma SysNumbersDistinct(s: Sys, s': Sys)
    ensures SysFromNumber(SysNumber(s)) == Some(s)
    ensures SysNumber(s) == SysNumber(s') ==> s == s'
  {
  }

  /** Of the five numbers the host side knows, the kernel entry serves only
      `SYS_WRITE`; read, open, close and ioctl all come back as "no such
      syscall". */
  lemma OnlyWriteIsServed(osWrite: Kernel.OsWrite, pid: Kernel.Pid, s: Sys,
                          a0: I32, a1: I32, a2: I32, a3: I32, a4: I32, a5: I32)
    ensures SYS_WRITE == Kernel.WRITE_NR
    ensures Kernel.Syscall(osWrite, pid, SysNumber(s), a0, a1, a2, a3, a4, a5)
         == if s == Write then osWrite(a0, AsU32(a1), AsU32(a2)) else Kernel.NO_SUCH_SYSCALL
  {
  }
}

=== FILE: vfs.dfy ===
/** The virtual file system: a table of sixteen descriptor
    slots with first-fit allocation, and the VFS proper, which turns the
    two device paths into descriptors and routes read, write and ioctl to
    the driver named by a descriptor's device id. The VFS holds only the
    two field-less drivers, so it carries no state and its operations are
    functions of their arguments. */
module Vfs {
  import opened Machine
  import opened Wrappers
  import opened Kernel
  import Drivers

  const MAX_FDS: nat := 16

  /** An open descriptor. `offset` is set to 0 at open and nothing in the
      kernel advances it. */
  datatype FileDescriptor = FileDescriptor(dev: U32, inode: U32, offset: U32, flags: U32)

  /** `FdTable`: exactly `MAX_FDS` optional slots; a descriptor number is a
      slot index. */
  type FdTable = t: seq<Option<FileDescriptor>> | |t| == MAX_FDS
    witness seq(16, _ => None)

  /** An index of the table, which is what a mutable borrow of a slot points at. */
  type Slot = i: nat | i < MAX_FDS

  predicate InRange(fd: Fd) {
    0 <= fd < MAX_FDS
  }

  predicate IsFree(t: FdTable, i: Slot) {
    t[i].None?
  }

  predicate IsFull(t: FdTable) {
    forall i: Slot :: !IsFree(t, i)
  }

  /** `FdTable::new`: every slot empty. */
  function New(): (t: FdTable)
    ensures forall i: Slot :: IsFree(t, i)
  {
    seq(MAX_FDS, _ => None)
  }

  /** The lowest free slot at or after `from`, if any. */
  function FirstFree(t: FdTable, from: nat): (r: Option<Slot>)
    requires from <= MAX_FDS
    ensures r.Some? ==> from <= r.value && IsFree(t, r.value)
    ensures r.Some? ==> forall j: Slot :: from <= j < r.value ==> !IsFree(t, j)
    ensures r.None? ==> forall j: Slot :: from <= j ==> !IsFree(t, j)
    decreases MAX_FDS - from
  {
    if from == MAX_FDS then None
    else if t[from].None? then Some(from)
    else FirstFree(t, from + 1)
  }

  datatype Allocated = Allocated(table: FdTable, result: Result<Fd>)

  /** `FdTable::allocate`: the first empty slot receives
      `{dev, inode, offset: 0, flags}` and its index is returned; a full
      table is left alone and the result is `Err`. */
  function Allocate(t: FdTable, dev: U32, inode: U32, flags: U32): (r: Allocated)
    ensures r.result.Err? <==> IsFull(t)
    ensures r.result.Err? ==> r.table == t
    ensures r.result.Ok? ==>
      && InRange(r.result.value)
      && IsFree(t, r.result.value)
      && (forall j: Slot :: j < r.result.value ==> !IsFree(t, j))
      && r.table == t[r.result.value := Some(FileDescriptor(dev, inode, 0, flags))]
  {
    match FirstFree(t, 0)
    case None => Allocated(t, Err)
    case Some(i) => Allocated(t[i := Some(FileDescriptor(dev, inode, 0, flags))], Ok(i))
  }

  /** `FdTable::get`: `None` out of range, else the slot's contents. */
  function Get(t: FdTable, fd: Fd): (r: Option<FileDescriptor>)
    ensures !InRange(fd) ==> r.None?
    ensures InRange(fd) ==> r == t[fd]
  {
    if fd < 0 || fd >= MAX_FDS then None else t[fd]
  }

  /** `FdTable::get_mut`: the same range check, yielding the slot a mutable
      borrow would point at when it is occupied. */
  function GetMut(t: FdTable, fd: Fd): (r: Option<Slot>)
    ensures r.Some? ==> r.value == fd && t[r.value].Some?
    ensures r.None? ==> !InRange(fd) || t[fd].None?
  {
    if fd < 0 || fd >= MAX_FDS then None
    else if t[fd].Some? then Some(fd as Slot)
    else None
  }

  datatype Closed = Closed(table: FdTable, code: ResultCode)

  /** `FdTable::close`: out of range is `ERR` with nothing changed; in range
      the slot is emptied, whether or not it was open, and the result is `OK`. */
  function Close(t: FdTable, fd: Fd): (r: Closed)
    ensures !InRange(fd) ==> r == Closed(t, ERR)
    ensures InRange(fd) ==> r.code == OK && r.table[fd].None?
    ensures forall i: Slot :: i != fd ==> r.table[i] == t[i]
  {
    if fd < 0 || fd >= MAX_FDS then Closed(t, ERR)
    else Closed(t[fd := None], OK)
  }

  /** The device namespace of `Vfs::open`. */
  function DeviceForPath(path: string): (dev: Option<U32>)
    ensures dev == Some(Drivers.DEV_NULL) <==> path == "/dev/null"
    ensures dev == Some(Drivers.DEV_SERIAL) <==> path == "/dev/serial"
    ensures dev.None? <==> path != "/dev/null" && path != "/dev/serial"
  {
    if path == "/dev/null" then Some(Drivers.DEV_NULL)
    else if path == "/dev/serial" then Some(Drivers.DEV_SERIAL)
    else None
  }

  datatype Opened = Opened(table: FdTable, fd: Fd)

  /** `Vfs::open`: a known path allocates a descriptor for its device with
      inode 0 in the caller's table; an unknown path, or a full table,
      yields `ERR` and leaves the table as it was. */
  function Open(path: string, flags: U32, t: FdTable): (r: Opened)
    ensures r.fd == ERR <==> DeviceForPath(path).None? || IsFull(t)
    ensures r.fd == ERR ==> r.table == t
    ensures r.fd != ERR ==>
      && InRange(r.fd)
      && IsFree(t, r.fd)
      && (forall j: Slot :: j < r.fd ==> !IsFree(t, j))
      && r.table == t[r.fd := Some(FileDescriptor(DeviceForPath(path).value, 0, 0, flags))]
  {
    match DeviceForPath(path)
    case None => Opened(t, ERR)
    case Some(dev) =>
      var a := Allocate(t, dev, 0, flags);
      match a.result
      case Ok(fd) => Opened(a.table, fd)
      case Err => Opened(t, ERR)
  }

  /** The match on a descriptor's device id shared by read, write and ioctl. */
  function DriverFor(dev: U32): (d: Option<Drivers.Driver>)
    ensures d.Some? ==> Drivers.DeviceOf(d.value) == dev
    ensures d.None? ==> dev != Drivers.DEV_NULL && dev != Drivers.DEV_SERIAL
  {
    if dev == Drivers.DEV_NULL then Some(Drivers.NullDriver)
    else if dev == Drivers.DEV_SERIAL then Some(Drivers.SerialDriver)
    else None
  }

  /** `Vfs::write`: the matching driver's result, `ERR` for an unknown device. */
  function Write(desc: FileDescriptor, buf: Buf, serialWrite: Drivers.SerialWrite): (r: ResultCode)
    ensures desc.dev == Drivers.DEV_NULL ==> r == |buf.bytes|
    ensures desc.dev == Drivers.DEV_SERIAL ==> r == serialWrite(buf.addr, |buf.bytes|)
    ensures desc.dev != Drivers.DEV_NULL && desc.dev != Drivers.DEV_SERIAL ==> r == ERR
  {
    match DriverFor(desc.dev)
    case Some(d) => Drivers.Write(d, buf, serialWrite)
    case None => ERR
  }

  /** `Vfs::read`: the matching driver's result, `ERR` for an unknown
      device; the buffer is never written. */
  function Read(desc: FileDescriptor, buf: Buf): (r: Drivers.ReadOutcome)
    ensures r.buf == buf
    ensures desc.dev == Drivers.DEV_NULL ==> r.code == 0
    ensures desc.dev != Drivers.DEV_NULL ==> r.code == ERR
  {
    match DriverFor(desc.dev)
    case Some(d) => Drivers.Read(d, buf)
    case None => Drivers.ReadOutcome(ERR, buf)
  }

  /** `Vfs::ioctl`: no device supports a command, so every descriptor fails. */
  function Ioctl(desc: FileDescriptor, cmd: U32, arg: U32): (r: ResultCode)
    ensures r == ERR
  {
    match DriverFor(desc.dev)
    case Some(d) => Drivers.Ioctl(d, cmd, arg)
    case None => ERR
  }

  // ---- Laws of the descriptor table ----

  /** `get_mut` finds a slot exactly when `get` finds a descriptor, and it
      is the slot holding that descriptor. */
  lemma GetMutAgreesWithGet(t: FdTable, fd: Fd)
    ensures GetMut(t, fd).Some? <==> Get(t, fd).Some?
    ensures GetMut(t, fd).Some? ==> Get(t, fd) == t[GetMut(t, fd).value]
  {
  }

  /** After a successful allocation `get` returns the new descriptor under
      the returned number and what it returned before under every other. */
  lemma AllocateThenGet(t: FdTable, dev: U32, inode: U32, flags: U32, fd: Fd)
    requires Allocate(t, dev, inode, flags).result.Ok?
    ensures var a := Allocate(t, dev, inode, flags);
      Get(a.table, fd) == if fd == a.result.value then Some(FileDescriptor(dev, inode, 0, flags))
                          else Get(t, fd)
  {
  }

  /** After `close(fd)` nothing is open under `fd`, and every other number
      reads as before. */
  lemma CloseThenGet(t: FdTable, fd: Fd, other: Fd)
    ensures Get(Close(t, fd).table, other) == if other == fd then None else Get(t, other)
  {
  }

  /** Closing twice is closing once: same table, same result code. */
  lemma CloseIdempotent(t: FdTable, fd: Fd)
    ensures Close(Close(t, fd).table, fd) == Close(t, fd)
  {
  }

  /** First-fit reuse: when every lower number is open, closing `fd` and
      allocating again hands `fd` back. */
  lemma CloseThenAllocateReuses(t: FdTable, fd: Fd, dev: U32, inode: U32, flags: U32)
    requires InRange(fd)
    requires forall j: Slot :: j < fd ==> !IsFree(t, j)
    ensures Allocate(Close(t, fd).table, dev, inode, flags).result == Ok(fd)
  {
    var c := Close(t, fd).table;
    assert IsFree(c, fd as Slot);
    forall j: Slot | j < fd
      ensures !IsFree(c, j)
    {
      assert c[j] == t[j];
      assert !IsFree(t, j);
    }
  }

  datatype Run = Run(table: FdTable, results: seq<Result<Fd>>)

  /** `n` allocations of the same device in a row. */
  function AllocateRun(t: FdTable, n: nat, dev: U32, inode: U32, flags: U32): (r: Run)
    ensures |r.results| == n
    decreases n
  {
    if n == 0 then Run(t, [])
    else
      var a := Allocate(t, dev, inode, flags);
      var rest := AllocateRun(a.table, n - 1, dev, inode, flags);
      Run(rest.table, [a.result] + rest.results)
  }

  /** Exactly the slots below `k` are occupied. */
  predicate OpenBelow(t: FdTable, k: nat) {
    forall i: Slot :: IsFree(t, i) <==> k <= i
  }

  /** From a table whose first `k` slots are open, `n` more allocations
      return `k, k + 1, ..., k + n - 1` in that order. */
  lemma {:induction false} AllocateRunCountsUp(t: FdTable, k: nat, n: nat, dev: U32, inode: U32, flags: U32)
    requires k + n <= MAX_FDS && OpenBelow(t, k)
    ensures var r := AllocateRun(t, n, dev, inode, flags);
      && OpenBelow(r.table, k + n)
      && forall i :: 0 <= i < n ==> r.results[i] == Ok(k + i)
    decreases n
  {
    if n > 0 {
      var a := Allocate(t, dev, inode, flags);
      AllocateAtBoundary(t, k, dev, inode, flags);
      AllocateRunCountsUp(a.table, k + 1, n - 1, dev, inode, flags);
      var rest := AllocateRun(a.table, n - 1, dev, inode, flags);
      var r := AllocateRun(t, n, dev, inode, flags);
      assert r.results == [a.result] + rest.results;
      forall i | 0 <= i < n
        ensures r.results[i] == Ok(k + i)
      {
        if i > 0 {
          assert r.results[i] == rest.results[i - 1];
        }
      }
    }
  }

  /** One allocation from a table whose first `k` slots are open takes slot `k`. */
  lemma AllocateAtBoundary(t: FdTable, k: nat, dev: U32, inode: U32, flags: U32)
    requires k < MAX_FDS && OpenBelow(t, k)
    ensures var a := Allocate(t, dev, inode, flags);
      a.result == Ok(k) && OpenBelow(a.table, k + 1)
  {
    var a := Allocate(t, dev, inode, flags);
    assert IsFree(t, k as Slot);
    assert a.result.value == k;
    assert a.table == t[k := Some(FileDescriptor(dev, inode, 0, flags))];
    forall i: Slot
      ensures IsFree(a.table, i) <==> k + 1 <= i
    {
      if i != k {
        assert a.table[i] == t[i];
        assert IsFree(t, i) <==> k <= i;
      }
    }
  }

  /** Sixteen allocations in a fresh table return 0, 1, ..., 15 and the
      seventeenth fails. */
  lemma FreshTableFillsInOrder(dev: U32, inode: U32, flags: U32)
    ensures var r := AllocateRun(New(), MAX_FDS + 1, dev, inode, flags);
      && (forall i :: 0 <= i < MAX_FDS ==> r.results[i] == Ok(i))
      && r.results[MAX_FDS] == Err
      && IsFull(r.table)
  {
    AllocateRunCountsUp(New(), 0, MAX_FDS, dev, inode, flags);
    AllocateRunSplit(New(), MAX_FDS, 1, dev, inode, flags);
  }

  /** Prepending an element commutes with concatenation. */
  lemma ConsAssoc<T>(x: T, a: seq<T>, b: seq<T>)
    ensures [x] + (a + b) == ([x] + a) + b
  {
  }

  /** A run of `m + n` allocations is a run of `m` followed by a run of `n`. */
  lemma {:induction false} AllocateRunSplit(t: FdTable, m: nat, n: nat, dev: U32, inode: U32, flags: U32)
    ensures var whole := AllocateRun(t, m + n, dev, inode, flags);
      var first := AllocateRun(t, m, dev, inode, flags);
      var second := AllocateRun(first.table, n, dev, inode, flags);
      whole == Run(second.table, first.results + second.results)
    decreases m
  {
    if m > 0 {
      var a := Allocate(t, dev, inode, flags);
      AllocateRunSplit(a.table, m - 1, n, dev, inode, flags);
      var first' := AllocateRun(a.table, m - 1, dev, inode, flags);
      var second := AllocateRun(first'.table, n, dev, inode, flags);
      ConsAssoc(a.result, first'.results, second.results);
    }
  }

  // ---- Laws of the VFS ----

  /** Every open descriptor names a device the VFS has a driver for. */
  predicate KnownDevices(t: FdTable) {
    forall i: Slot :: t[i].Some? ==> DriverFor(t[i].value.dev).Some?
  }

  /** Only `open` creates descriptors, so tables built by `new`, `open` and
      `close` never hold an unknown device id, and the `ERR` fallback of
      read, write and ioctl is unreachable through them. */
  lemma KnownDevicesPreserved(t: FdTable, path: string, flags: U32, fd: Fd)
    requires KnownDevices(t)
    ensures KnownDevices(New())
    ensures KnownDevices(Open(path, flags, t).table)
    ensures KnownDevices(Close(t, fd).table)
  {
    var r := Open(path, flags, t);
    if r.fd != ERR {
      forall i: Slot | r.table[i].Some?
        ensures DriverFor(r.table[i].value.dev).Some?
      {
        if i != r.fd {
          assert r.table[i] == t[i];
        }
      }
    }
  }

  /** Opening a device and writing through the new descriptor yields that
      device's driver result: the whole length for `/dev/null`, the
      `serial_write` result for `/dev/serial`. */
  lemma OpenThenWrite(path: string, flags: U32, t: FdTable, buf: Buf, serialWrite: Drivers.SerialWrite)
    requires DeviceForPath(path).Some? && !IsFull(t)
    ensures var r := Open(path, flags, t);
      && r.fd != ERR
      && Get(r.table, r.fd).Some?
      && Get(r.table, r.fd).value.dev == DeviceForPath(path).value
      && Write(Get(r.table, r.fd).value, buf, serialWrite)
         == (if path == "/dev/null" then |buf.bytes| else serialWrite(buf.addr, |buf.bytes|))
  {
  }

  /** Reading never writes the buffer and succeeds, with 0 bytes, exactly on
      the null device. */
  lemma ReadSucceedsOnlyOnNull(desc: FileDescriptor, buf: Buf)
    ensures Read(desc, buf).buf == buf
    ensures Read(desc, buf).code >= 0 <==> DriverFor(desc.dev) == Some(Drivers.NullDriver)
  {
  }
}

=== FILE: wrappers.dfy ===
/** Failure-carrying values shared by the kernel model: Rust's `Option<T>`
    and `Result<T, ()>`. */
module Wrappers {

  datatype Option<+T> = None | Some(value: T)

  /** Rust's `Result<T, ()>`: the error case carries no payload. */
  datatype Result<+T> = Ok(value: T) | Err
}
